=== FILE: README.md ===
# directory-cleaner, modelled in Dafny

`directory-cleaner` is a command-line tool invoked as
`<program> <directory> <threshold_seconds>`. It deletes every entry of one
directory whose creation time is strictly earlier than "now minus the
threshold". The logic lives in `src/lib.rs` and has two parts:

- `DeleteConfig::build` turns the argument tokens into a `DeleteConfig`: a directory plus a cutoff instant.
- `run` checks that the directory exists and then calls `delete_files`. That function walks the directory entries once, in listing order. It removes each old entry and stops at the first error.

The model has five modules, one file each:

- `results.dfy` (`Results`): a closed `Error` type, plus `Option`, `Result` and `Outcome`. The source uses string errors and boxed errors; `Error` has one constructor per kind of failure instead. Two kinds merge several failure points: `ReadDirFailed` covers both `read_dir` and a failed listed item (`entry?`), and `MetadataUnavailable` covers both `metadata()?` and `created()?`.
- `threshold.dfy` (`Threshold`): `str::parse::<u64>` for the threshold token. It accepts an optional leading `+` followed by one or more ASCII digits, with a value of at most 2^64 − 1.
- `config.dfy` (`Config`): `DeleteConfig` and `Build`. The clock reading is an explicit parameter `now`, and `Build` never sees a filesystem.
- `pass.dfy` (`DeletionPass`): `delete_files` in two forms, each checked against reference definitions.
  - `DeletePass` is a fold. `DeleteFiles` is a loop that follows the source's `for` loop.
  - The reference definitions are `Survivors`, the entries that are not old, and `FirstFault`, the first entry the pass cannot get through.
  - Each entry is abstract. It has a name, a creation instant, and three flags for the fallible steps:
    - `listed`: the listing yielded the item (`entry?`);
    - `hasCreated`: `metadata()?.created()?` succeeds;
    - `removable`: `remove_file` succeeds.
- `cleaner.dfy` (`Cleaner`): `run` over a filesystem, modelled as a map from path to directory.
  - A path that is not a key does not exist.
  - A directory marked not `readable` is a path that `read_dir` refuses.

Instants are whole seconds held in unbounded integers.

Three details of the program shape the model:

- The program reports a missing directory and a missing threshold with different messages, so the model has `MissingDirectory` and `MissingThreshold`.
- The program never checks the entry kind; it calls `remove_file` on every old entry. In the model, an entry that cannot be removed, such as a subdirectory, is simply not `removable`.
- The program can also fail in `read_dir` itself and when fetching a listed item. Both are `ReadDirFailed` here.

## Model

| member | source | states |
|---|---|---|
| Threshold.ParseU64 | src/lib.rs:27-30 | an accepted threshold is at most 2^64 − 1 |
| Threshold.ParseDecimal | src/lib.rs:27-30 | every u64 is accepted when written in decimal, with or without a leading `+` |
| Threshold.ParseOverflow | src/lib.rs:27-30 | a decimal number above 2^64 − 1 is rejected |
| Threshold.ParseCanonical | src/lib.rs:27-30 | an accepted token is an optional `+`, then leading zeros, then the decimal spelling of the value it is read as |
| Threshold.ParseLeadingZero | src/lib.rs:27-30 | a zero put in front of a digit string, with or without a leading `+`, gives the same parse result, so `007` and `+007` read as 7 |
| Threshold.ParseRejectsNonDigit | src/lib.rs:27-30 | a character that is not a digit, other than a leading `+`, makes the token invalid (so `-5`, ` 5` and `abc` are rejected) |
| Config.Build | src/lib.rs:12-35 | fewer than two tokens gives the missing-directory error, and exactly two gives the missing-threshold error (each if and only if). An unparsable third token gives the invalid-threshold error. The build succeeds exactly when there are at least three tokens and the third parses, and those three are the only errors. On success, dir is the second token, the third token parses to exactly now − cutoff, and the cutoff lies between now − (2^64 − 1) and now |
| Config.BuildInvocation | src/lib.rs:12-35 | building from `<program> <dir> <decimal t>`, followed by any tokens, gives dir and the cutoff now − t |
| Config.BuildIsInvocation | src/lib.rs:32-34 | every successful build equals the build of the canonical command line made from its own dir and threshold |
| Config.BuildIgnoresProgramName | src/lib.rs:15 | the first token never affects the result |
| Config.BuildIgnoresTrailing | src/lib.rs:22-34 | tokens after the third are never inspected |
| Config.BuildZeroThreshold | src/lib.rs:27-34 | threshold `0` puts the cutoff at now |
| Config.BuildRejectsWord | src/lib.rs:27-30 | threshold `abc` gives the invalid-threshold error |
| DeletionPass.Fault | src/lib.rs:53-56 | an entry raises no error exactly when it is listed, its creation time is readable, and, if it is old, it can be removed. A failed `entry?` gives `ReadDirFailed`. A failed `metadata()?.created()?` on a listed entry gives `MetadataUnavailable`. `DeletionFailed` happens exactly when a listed entry with a readable creation time is old and cannot be removed |
| DeletionPass.Survivors | src/lib.rs:55-57 | no surviving entry is strictly older than the cutoff, and there are never more survivors than entries |
| DeletionPass.SurvivorsMembers | src/lib.rs:55-57 | an entry survives if and only if it was present and is not strictly older than the cutoff |
| DeletionPass.DeletePass | src/lib.rs:51-61 | the pass never invents entries, and it fails only with a listing, metadata or deletion error |
| DeletionPass.PassThroughPrefix | src/lib.rs:52-58 | over a prefix of healthy entries, the pass removes that prefix's old entries and then leaves and reports exactly what a pass started right after the prefix would |
| DeletionPass.DeletePassSpec | src/lib.rs:52-58 | up to the first faulty entry, the old entries are removed and the rest kept in order. The faulty entry and all later entries are untouched, and the outcome is that entry's error, or success if there is no faulty entry |
| DeletionPass.PassSucceeds | src/lib.rs:52-60 | the pass succeeds if and only if every entry is healthy, and then exactly the entries that are not old remain |
| DeletionPass.PassRemovesExactlyOld | src/lib.rs:55-56 | after a successful pass, an entry remains if and only if its creation time is ≥ the cutoff. An entry created exactly at the cutoff is kept |
| DeletionPass.PassAborts | src/lib.rs:52-56 | an aborted pass reports the first faulty entry's error. Old entries before it stay removed, and it and every later entry are left in place, with no rollback |
| DeletionPass.PassKeepsYoung | src/lib.rs:55 | whatever the outcome, an entry that is not older than the cutoff is never removed |
| DeletionPass.PassIdempotent | src/lib.rs:52-58 | running the pass again over what it left gives the same remaining entries and the same outcome |
| DeletionPass.PassOrderIndependent | src/lib.rs:52-58 | two listings of the same entries in any order either both succeed or both fail. On success they leave the same multiset of entries |
| DeletionPass.AbortDependsOnOrder | src/lib.rs:52-56 | after an abort the leftovers depend on the order: an old, healthy entry listed before an unlistable one is removed, and listed after it is kept, with `ReadDirFailed` both times |
| DeletionPass.DeleteFiles | src/lib.rs:51-61 | the step-by-step loop meets the reference description (the old entries before the first fault are removed, and the first fault's error is reported) and agrees with the fold |
| Cleaner.Run | src/lib.rs:39-49 | a missing directory gives `DirectoryNotFound` and an unreadable one gives `ReadDirFailed`, both with the filesystem unchanged. No other path ever changes, and the directory stays as readable as it was. For an existing, readable directory, the outcome is the deletion pass's outcome, unchanged. The directory ends up holding the survivors of the entries before the first faulty one, followed by that entry and all later ones. The run succeeds exactly when every entry is healthy. On success, the directory holds exactly the entries that are not older than the cutoff |
| Cleaner.RunIdempotent | src/lib.rs:39-58 | a second run with the same configuration changes nothing and reports the same outcome |
| Cleaner.RunOrderIndependent | src/lib.rs:46-58 | whether the run succeeds does not depend on the listing order, and on success neither does the multiset of surviving entries. After an abort, what is left does depend on the order, because the pass stops at the first faulty entry it meets |
| Cleaner.RunEmptyDirectory | src/lib.rs:42-48 | an existing, readable, empty directory is cleaned successfully and stays empty |
| Cleaner.TwoOldFilesRemoved | src/lib.rs:72-95 | two files created at t0, a one-second threshold and a run at t0 + 2 or later: the cutoff is now − 1, both files are removed and the run succeeds |

## Left out

- `src/main.rs` is not part of this model. It prints the error and exits with status 1 on any error, which is I/O plumbing.
- Times are whole seconds. The source's `SystemTime` has nanosecond resolution; only the strict comparison against the cutoff is modelled.
- `SystemTime::now() - Duration::from_secs(threshold)` panics when the difference cannot be represented, for example with a threshold close to 2^64 − 1. Instants here are unbounded integers, so the model has no panic.
- The clock is the parameter `now`. The filesystem is a map. Calls such as `Path::exists` and `read_dir`, symlink resolution, and whether the platform supports `created()` are not modelled in detail. They appear only as map membership and the per-entry flags.
- The listing order is whatever order the entry sequence has. `RunOrderIndependent` shows that whether the run succeeds does not depend on the listing order, and on success neither does the multiset of surviving entries. After an abort, what is left does depend on the order: an old entry listed before the faulty one is removed, and one listed after it is kept.
- The per-entry flags (`listed`, `hasCreated`, `removable`) are fixed properties of an entry, so a second run meets the same failures at the same entry. This "no external change" assumption, together with a second listing in the same order, is why `PassIdempotent` and `RunIdempotent` also give the same outcome after an aborted pass. The entry sequence the first run leaves is the one the second run lists; if the second listing put an old entry before the faulty one, that entry would be removed. The real program could get further on a retry after a transient error.
- Each map key is a separate directory. Different spellings of one path, such as `d`, `./d` and `d/`, and symlinks to it are not related, so a run on one key never shows up under another.
- Concurrent changes to the directory during a pass are not modelled. The source does not guard against them.
- The error message strings are not modelled. Each message is one constructor of `Error`.
- Rust's integer parser is modelled only for radix 10 on characters; its error kinds (empty, invalid digit, overflow) all collapse into the invalid-threshold error, as they do in `build`.

=== FILE: cleaner.dfy ===
/** `run`: check that the configured directory exists, then hand it to the
    deletion pass.  The filesystem is a map from path to directory; a path
    that is not a key does not exist, and a directory that is not `readable`
    stands for any path `read_dir` refuses (a plain file, a permission
    error). */
module Cleaner {
  import opened Results
  import opened Config
  import opened DeletionPass

  datatype Directory = Directory(readable: bool, entries: seq<Entry>)

  type FileSystem = map<string, Directory>

  datatype RunResult = RunResult(fs: FileSystem, outcome: Outcome)

  /** `run(config)`: the existence gate, the listing, then the pass over the
      listed entries with the configured cutoff.  Only the configured
      directory can change. */
  function Run(config: DeleteConfig, fs: FileSystem): (r: RunResult)
    ensures r.fs.Keys == fs.Keys
    ensures forall p :: p in fs && p != config.dir ==> r.fs[p] == fs[p]
    ensures config.dir in fs ==> r.fs[config.dir].readable == fs[config.dir].readable
    ensures config.dir !in fs ==> r == RunResult(fs, Fail(DirectoryNotFound))
    ensures config.dir in fs && !fs[config.dir].readable ==> r == RunResult(fs, Fail(ReadDirFailed))
    ensures r.outcome.Pass? ==>
      (config.dir in fs && r.fs[config.dir].entries == Survivors(fs[config.dir].entries, config.cutoff))
    ensures config.dir in fs && fs[config.dir].readable ==>
      var es := fs[config.dir].entries;
      var i := FirstFault(es, config.cutoff);
      && r.outcome == DeletePass(es, config.cutoff).outcome
      && r.fs[config.dir].entries == Survivors(es[..i], config.cutoff) + es[i..]
      && (r.outcome.Pass? <==> forall k :: 0 <= k < |es| ==> Healthy(es[k], config.cutoff))
  {
    if config.dir !in fs then RunResult(fs, Fail(DirectoryNotFound))
    else
      var d := fs[config.dir];
      if !d.readable then RunResult(fs, Fail(ReadDirFailed))
      else
        var pass := DeletePass(d.entries, config.cutoff);
        PassSucceeds(d.entries, config.cutoff);
        DeletePassSpec(d.entries, config.cutoff);
        RunResult(fs[config.dir := Directory(true, pass.remaining)], pass.outcome)
  }

  /** A second run with the same configuration and no change in between
      leaves the filesystem as the first run left it and reports the same
      outcome. */
  lemma {:induction false} RunIdempotent(config: DeleteConfig, fs: FileSystem)
    ensures Run(config, Run(config, fs).fs) == Run(config, fs)
  {
    if config.dir in fs && fs[config.dir].readable {
      var es := fs[config.dir].entries;
      PassIdempotent(es, config.cutoff);
      var fs' := Run(config, fs).fs;
      assert fs'[config.dir := Directory(true, DeletePass(es, config.cutoff).remaining)] == fs';
    }
  }

  /** Whether a run succeeds, and the set of entries it leaves, does not
      depend on the order in which the directory lists them. */
  lemma {:induction false} RunOrderIndependent(config: DeleteConfig, fs: FileSystem, listing: seq<Entry>)
    requires config.dir in fs
    requires multiset(listing) == multiset(fs[config.dir].entries)
    ensures var other := fs[config.dir := Directory(fs[config.dir].readable, listing)];
      && (Run(config, fs).outcome.Pass? <==> Run(config, other).outcome.Pass?)
      && (Run(config, fs).outcome.Pass? ==>
            multiset(Run(config, fs).fs[config.dir].entries)
            == multiset(Run(config, other).fs[config.dir].entries))
  {
    PassOrderIndependent(fs[config.dir].entries, listing, config.cutoff);
  }

  /** An existing, readable, empty directory is cleaned successfully and
      stays empty. */
  lemma RunEmptyDirectory(config: DeleteConfig, fs: FileSystem)
    requires config.dir in fs && fs[config.dir] == Directory(true, [])
    ensures Run(config, fs) == RunResult(fs, Pass)
  {
  }

  /** The scenario of the test `test_delete_old_files`: two healthy files
      created at `t0`, a threshold of one second and a pass at least two
      seconds later remove both files and succeed. */
  lemma TwoOldFilesRemoved(t0: int, now: int)
    requires now >= t0 + 2
    ensures var dir := "./temp_for_test";
      var file1 := Entry("file1.txt", t0, true, true, true);
      var file2 := Entry("file2.txt", t0, true, true, true);
      var fs := map[dir := Directory(true, [file1, file2])];
      && Build(["directory_cleaner", dir, "1"], now) == Ok(DeleteConfig(dir, now - 1))
      && DeletePass([file1, file2], now - 1) == PassResult([], Pass)
      && Run(DeleteConfig(dir, now - 1), fs) == RunResult(map[dir := Directory(true, [])], Pass)
  {
    assert Threshold.Unsigned("1") == "1";
    var file1 := Entry("file1.txt", t0, true, true, true);
    var file2 := Entry("file2.txt", t0, true, true, true);
    assert [file1, file2][1..] == [file2];
    assert [file2][1..] == [];
    assert DeletePass([file2], now - 1) == PassResult([], Pass);
  }
}

=== FILE: config.dfy ===
/** `DeleteConfig` and its builder: turning the command-line tokens and the
    current instant into the directory to clean and the cutoff instant.
    Instants are whole seconds; the clock reading `SystemTime::now()` is the
    parameter `now`, so building touches neither the clock nor the filesystem. */
module Config {
  import opened Results
  import opened Threshold

  /** The directory to clean and the instant before which an entry counts as old. */
  datatype DeleteConfig = DeleteConfig(dir: string, cutoff: int)

  /** `DeleteConfig::build`: skip the program name, take the directory and the
      threshold tokens in that order, parse the threshold as seconds, and set
      the cutoff that many seconds before `now`.  Later tokens are ignored. */
  function Build(args: seq<string>, now: int): (r: Result<DeleteConfig>)
    ensures r == Err(MissingDirectory) <==> |args| < 2
    ensures r == Err(MissingThreshold) <==> |args| == 2
    ensures r == Err(InvalidThreshold) <==> |args| >= 3 && ParseU64(args[2]).None?
    ensures r.Ok? <==> |args| >= 3 && ParseU64(args[2]).Some?
    ensures r.Err? ==> r.error in {MissingDirectory, MissingThreshold, InvalidThreshold}
    ensures r.Ok? ==> |args| >= 3 && r.value.dir == args[1]
    ensures r.Ok? ==> ParseU64(args[2]) == Some(now - r.value.cutoff)
    ensures r.Ok? ==> now - U64_MAX <= r.value.cutoff <= now
  {
    if |args| < 2 then Err(MissingDirectory)
    else if |args| < 3 then Err(MissingThreshold)
    else
      match ParseU64(args[2])
      case None => Err(InvalidThreshold)
      case Some(threshold) => Ok(DeleteConfig(args[1], now - threshold))
  }

  /** The command line `<program> <directory> <threshold_seconds>`. */
  function Invocation(program: string, dir: string, threshold: nat): (args: seq<string>)
    ensures |args| == 3
  {
    [program, dir, Decimal(threshold)]
  }

  /** Building from a well-formed command line recovers its directory and
      threshold, whatever follows it. */
  lemma BuildInvocation(program: string, dir: string, threshold: nat, rest: seq<string>, now: int)
    requires threshold <= U64_MAX
    ensures Build(Invocation(program, dir, threshold) + rest, now)
         == Ok(DeleteConfig(dir, now - threshold))
  {
    ParseDecimal(threshold);
    assert (Invocation(program, dir, threshold) + rest)[2] == Decimal(threshold);
  }

  /** Every successful build is the build of a well-formed command line. */
  lemma BuildIsInvocation(args: seq<string>, now: int)
    requires Build(args, now).Ok?
    ensures var c := Build(args, now).value;
      && now - c.cutoff <= U64_MAX
      && Build(Invocation(args[0], c.dir, now - c.cutoff), now) == Build(args, now)
  {
    var c := Build(args, now).value;
    BuildInvocation(args[0], c.dir, now - c.cutoff, [], now);
    assert Invocation(args[0], c.dir, now - c.cutoff) + [] == Invocation(args[0], c.dir, now - c.cutoff);
  }

  /** The first token is discarded unread. */
  lemma BuildIgnoresProgramName(a: string, b: string, rest: seq<string>, now: int)
    ensures Build([a] + rest, now) == Build([b] + rest, now)
  {
  }

  /** Tokens after the third are never inspected. */
  lemma BuildIgnoresTrailing(args: seq<string>, extra: seq<string>, now: int)
    requires |args| >= 3
    ensures Build(args + extra, now) == Build(args, now)
  {
  }

  /** A zero threshold puts the cutoff at the invocation instant. */
  lemma BuildZeroThreshold(program: string, dir: string, now: int)
    ensures Build([program, dir, "0"], now) == Ok(DeleteConfig(dir, now))
  {
  }

  /** A non-numeric threshold is rejected. */
  lemma BuildRejectsWord(program: string, dir: string, now: int)
    ensures Build([program, dir, "abc"], now) == Err(InvalidThreshold)
  {
  }
}

=== FILE: pass.dfy ===
/** The deletion pass `delete_files`: one fail-fast walk over the entries of a
    directory in enumeration order, removing every entry created strictly
    before the cutoff.  The filesystem is abstract: each entry carries its
    creation instant and the outcome of the three fallible steps the pass
    performs on it. */
module DeletionPass {
  import opened Results

  /** One listed item.  `listed` is whether the listing yielded it without
      error (`entry?`), `hasCreated` whether its metadata and creation time
      could be read (`metadata()?.created()?`), `removable` whether
      `remove_file` would succeed on it. */
  datatype Entry = Entry(
    name: string,
    created: int,
    listed: bool,
    hasCreated: bool,
    removable: bool)

  /** Result of a pass: the entries left in the directory, in enumeration
      order, and whether the pass completed. */
  datatype PassResult = PassResult(remaining: seq<Entry>, outcome: Outcome)

  /** The comparison of the pass: strictly earlier than the cutoff. */
  predicate IsOld(e: Entry, cutoff: int) {
    e.created < cutoff
  }

  /** An entry the pass gets through without error. */
  predicate Healthy(e: Entry, cutoff: int) {
    e.listed && e.hasCreated && (IsOld(e, cutoff) ==> e.removable)
  }

  /** The error examining `e` raises, if any; the three steps run in order. */
  function Fault(e: Entry, cutoff: int): (r: Option<Error>)
    ensures r.None? <==> Healthy(e, cutoff)
    ensures !e.listed ==> r == Some(ReadDirFailed)
    ensures e.listed && !e.hasCreated ==> r == Some(MetadataUnavailable)
    ensures r == Some(DeletionFailed)
        <==> e.listed && e.hasCreated && IsOld(e, cutoff) && !e.removable
    ensures r.Some? ==> r.value in {ReadDirFailed, MetadataUnavailable, DeletionFailed}
  {
    if !e.listed then Some(ReadDirFailed)
    else if !e.hasCreated then Some(MetadataUnavailable)
    else if IsOld(e, cutoff) && !e.removable then Some(DeletionFailed)
    else None
  }

  /** What an examined, healthy entry leaves behind. */
  function Kept(e: Entry, cutoff: int): seq<Entry> {
    if IsOld(e, cutoff) then [] else [e]
  }

  /** Reference definition: the entries that are not old, in order. */
  function Survivors(es: seq<Entry>, cutoff: int): (r: seq<Entry>)
    ensures |r| <= |es|
    ensures forall k :: 0 <= k < |r| ==> !IsOld(r[k], cutoff)
  {
    if |es| == 0 then [] else Kept(es[0], cutoff) + Survivors(es[1..], cutoff)
  }

  /** An entry survives if and only if it was present and is not old. */
  lemma {:induction false} SurvivorsMembers(es: seq<Entry>, cutoff: int, e: Entry)
    ensures e in Survivors(es, cutoff) <==> e in es && !IsOld(e, cutoff)
  {
    if |es| > 0 {
      SurvivorsMembers(es[1..], cutoff, e);
      assert es == [es[0]] + es[1..];
    }
  }

  /** Reference definition: the index of the first entry the pass cannot get
      through, or `|es|` if there is none. */
  function FirstFault(es: seq<Entry>, cutoff: int): (i: nat)
    ensures i <= |es|
    ensures forall j :: 0 <= j < i ==> Healthy(es[j], cutoff)
    ensures i < |es| ==> !Healthy(es[i], cutoff)
  {
    if |es| == 0 then 0
    else if !Healthy(es[0], cutoff) then 0
    else 1 + FirstFault(es[1..], cutoff)
  }

  /** `delete_files` as a fold: stop with the error of the first faulty
      entry, leaving it and everything after it untouched; otherwise drop the
      entry if it is old and continue. */
  function DeletePass(es: seq<Entry>, cutoff: int): (r: PassResult)
    ensures forall e :: e in r.remaining ==> e in es
    ensures r.outcome.Fail? ==> r.outcome.error in {ReadDirFailed, MetadataUnavailable, DeletionFailed}
  {
    if |es| == 0 then PassResult([], Pass)
    else
      match Fault(es[0], cutoff)
      case Some(err) => PassResult(es, Fail(err))
      case None =>
        var rest := DeletePass(es[1..], cutoff);
        PassResult(Kept(es[0], cutoff) + rest.remaining, rest.outcome)
  }

  lemma {:induction false} SurvivorsAppend(a: seq<Entry>, b: seq<Entry>, cutoff: int)
    ensures Survivors(a + b, cutoff) == Survivors(a, cutoff) + Survivors(b, cutoff)
  {
    if |a| == 0 {
      assert a + b == b;
    } else {
      assert (a + b)[1..] == a[1..] + b;
      SurvivorsAppend(a[1..], b, cutoff);
    }
  }

  lemma SurvivorsStep(es: seq<Entry>, i: nat, cutoff: int)
    requires i < |es|
    ensures Survivors(es[..i + 1], cutoff) == Survivors(es[..i], cutoff) + Kept(es[i], cutoff)
  {
    assert es[..i + 1] == es[..i] + [es[i]];
    SurvivorsAppend(es[..i], [es[i]], cutoff);
    assert [es[i]][1..] == [];
    assert Survivors([es[i]], cutoff) == Kept(es[i], cutoff) + Survivors([], cutoff);
  }

  lemma DeletePassCons(es: seq<Entry>, cutoff: int)
    requires |es| > 0 && Healthy(es[0], cutoff)
    ensures DeletePass(es, cutoff)
         == PassResult(Kept(es[0], cutoff) + DeletePass(es[1..], cutoff).remaining,
                       DeletePass(es[1..], cutoff).outcome)
  {
  }

  /** Over a healthy prefix the pass removes that prefix's old entries and
      carries on with the rest exactly as a pass started there would. */
  lemma {:induction false} PassThroughPrefix(es: seq<Entry>, j: nat, cutoff: int)
    requires j <= |es|
    requires forall k :: 0 <= k < j ==> Healthy(es[k], cutoff)
    ensures DeletePass(es, cutoff).remaining
         == Survivors(es[..j], cutoff) + DeletePass(es[j..], cutoff).remaining
    ensures DeletePass(es, cutoff).outcome == DeletePass(es[j..], cutoff).outcome
  {
    if j == 0 {
      assert es[..0] == [] && es[0..] == es;
    } else {
      PassThroughPrefix(es, j - 1, cutoff);
      SurvivorsStep(es, j - 1, cutoff);
      var tail := es[j - 1..];
      assert tail[0] == es[j - 1] && tail[1..] == es[j..];
      DeletePassCons(tail, cutoff);
    }
  }

  /** The pass removes the old entries before the first fault, stops there
      with that entry's error, and leaves the faulty entry and all later ones
      as they were. */
  lemma DeletePassSpec(es: seq<Entry>, cutoff: int)
    ensures var i := FirstFault(es, cutoff);
      && DeletePass(es, cutoff).remaining == Survivors(es[..i], cutoff) + es[i..]
      && DeletePass(es, cutoff).outcome
         == (if i == |es| then Pass else Fail(Fault(es[i], cutoff).value))
  {
    var i := FirstFault(es, cutoff);
    PassThroughPrefix(es, i, cutoff);
    if i < |es| {
      assert es[i..][0] == es[i];
    } else {
      assert es[i..] == [];
    }
  }

  /** The pass completes exactly when every entry is healthy, and then the
      entries left are exactly the ones created at or after the cutoff. */
  lemma {:induction false} PassSucceeds(es: seq<Entry>, cutoff: int)
    ensures DeletePass(es, cutoff).outcome.Pass?
        <==> forall i :: 0 <= i < |es| ==> Healthy(es[i], cutoff)
    ensures DeletePass(es, cutoff).outcome.Pass?
        ==> DeletePass(es, cutoff).remaining == Survivors(es, cutoff)
  {
    DeletePassSpec(es, cutoff);
    assert es[..|es|] == es;
  }

  /** On success an entry is left behind if and only if it is not old: an
      entry created exactly at the cutoff stays, every earlier one goes. */
  lemma {:induction false} PassRemovesExactlyOld(es: seq<Entry>, cutoff: int, e: Entry)
    requires e in es
    requires DeletePass(es, cutoff).outcome.Pass?
    ensures e in DeletePass(es, cutoff).remaining <==> e.created >= cutoff
  {
    PassSucceeds(es, cutoff);
    SurvivorsMembers(es, cutoff, e);
  }

  /** Fail-fast: an aborted pass has removed the old entries before the
      faulty one, and leaves the faulty entry and every later one in place. */
  lemma {:induction false} PassAborts(es: seq<Entry>, cutoff: int)
    requires DeletePass(es, cutoff).outcome.Fail?
    ensures var i := FirstFault(es, cutoff);
      && i < |es|
      && DeletePass(es, cutoff).outcome.error == Fault(es[i], cutoff).value
      && DeletePass(es, cutoff).remaining == Survivors(es[..i], cutoff) + es[i..]
  {
    DeletePassSpec(es, cutoff);
  }

  /** Whatever the outcome, an entry that is not old is never removed. */
  lemma {:induction false} PassKeepsYoung(es: seq<Entry>, cutoff: int, e: Entry)
    requires e in es && e.created >= cutoff
    ensures e in DeletePass(es, cutoff).remaining
  {
    DeletePassSpec(es, cutoff);
    var i := FirstFault(es, cutoff);
    assert es == es[..i] + es[i..];
    SurvivorsMembers(es[..i], cutoff, e);
  }

  /** Running the pass again over what it left changes nothing: the result,
      outcome included, is the same as after the first run. */
  lemma {:induction false} PassIdempotent(es: seq<Entry>, cutoff: int)
    ensures DeletePass(DeletePass(es, cutoff).remaining, cutoff) == DeletePass(es, cutoff)
  {
    if |es| > 0 && Healthy(es[0], cutoff) {
      var rest := DeletePass(es[1..], cutoff);
      PassIdempotent(es[1..], cutoff);
      if !IsOld(es[0], cutoff) {
        var r := [es[0]] + rest.remaining;
        assert Kept(es[0], cutoff) == [es[0]];
        assert DeletePass(es, cutoff) == PassResult(r, rest.outcome);
        assert r[0] == es[0] && r[1..] == rest.remaining;
        assert DeletePass(r, cutoff)
            == PassResult([es[0]] + DeletePass(rest.remaining, cutoff).remaining,
                          DeletePass(rest.remaining, cutoff).outcome);
      } else {
        assert DeletePass(es, cutoff).remaining == rest.remaining;
      }
    }
  }

  lemma {:induction false} SurvivorsCount(es: seq<Entry>, cutoff: int)
    ensures forall e :: multiset(Survivors(es, cutoff))[e]
                        == if IsOld(e, cutoff) then 0 else multiset(es)[e]
  {
    if |es| > 0 {
      SurvivorsCount(es[1..], cutoff);
      assert es == [es[0]] + es[1..];
    }
  }

  lemma {:induction false} SurvivorsPermutation(a: seq<Entry>, b: seq<Entry>, cutoff: int)
    requires multiset(a) == multiset(b)
    ensures multiset(Survivors(a, cutoff)) == multiset(Survivors(b, cutoff))
  {
    SurvivorsCount(a, cutoff);
    SurvivorsCount(b, cutoff);
    forall e
      ensures multiset(Survivors(a, cutoff))[e] == multiset(Survivors(b, cutoff))[e]
    {
    }
  }

  lemma {:induction false} AllHealthyTransfers(a: seq<Entry>, b: seq<Entry>, cutoff: int)
    requires multiset(a) == multiset(b)
    ensures (forall i :: 0 <= i < |a| ==> Healthy(a[i], cutoff))
        ==> (forall j :: 0 <= j < |b| ==> Healthy(b[j], cutoff))
  {
    if forall i :: 0 <= i < |a| ==> Healthy(a[i], cutoff) {
      forall j | 0 <= j < |b|
        ensures Healthy(b[j], cutoff)
      {
        assert b[j] in multiset(a);
        var i :| 0 <= i < |a| && a[i] == b[j];
      }
    }
  }

  /** Where the pass stops is determined by the first entry that is not
      healthy. */
  lemma StopsAt(es: seq<Entry>, cutoff: int, i: nat)
    requires i <= |es|
    requires forall j :: 0 <= j < i ==> Healthy(es[j], cutoff)
    requires i < |es| ==> !Healthy(es[i], cutoff)
    ensures FirstFault(es, cutoff) == i
    ensures DeletePass(es, cutoff).remaining == Survivors(es[..i], cutoff) + es[i..]
    ensures DeletePass(es, cutoff).outcome
         == (if i == |es| then Pass else Fail(Fault(es[i], cutoff).value))
  {
    DeletePassSpec(es, cutoff);
  }

  /** Enumeration order does not matter on success: two listings of the same
      entries either both complete or both abort, and when they complete they
      leave the same entries behind. */
  lemma {:induction false} PassOrderIndependent(a: seq<Entry>, b: seq<Entry>, cutoff: int)
    requires multiset(a) == multiset(b)
    ensures DeletePass(a, cutoff).outcome.Pass? <==> DeletePass(b, cutoff).outcome.Pass?
    ensures DeletePass(a, cutoff).outcome.Pass?
        ==> multiset(DeletePass(a, cutoff).remaining) == multiset(DeletePass(b, cutoff).remaining)
  {
    PassSucceeds(a, cutoff);
    PassSucceeds(b, cutoff);
    AllHealthyTransfers(a, b, cutoff);
    AllHealthyTransfers(b, a, cutoff);
    SurvivorsPermutation(a, b, cutoff);
  }

  /** After an abort the order does matter: an old entry listed before an
      unlistable one is removed, while the same entry listed after it is
      left in place. */
  lemma AbortDependsOnOrder()
    ensures var old1 := Entry("a", 0, true, true, true);
      var lost := Entry("b", 0, false, true, true);
      && DeletePass([old1, lost], 5) == PassResult([lost], Fail(ReadDirFailed))
      && DeletePass([lost, old1], 5) == PassResult([lost, old1], Fail(ReadDirFailed))
  {
    var old1 := Entry("a", 0, true, true, true);
    var lost := Entry("b", 0, false, true, true);
    assert [old1, lost][1..] == [lost];
  }

  /** The `for` loop of `delete_files`, step by step. */
  method DeleteFiles(entries: seq<Entry>, cutoff: int) returns (remaining: seq<Entry>, outcome: Outcome)
    ensures var i := FirstFault(entries, cutoff);
      && remaining == Survivors(entries[..i], cutoff) + entries[i..]
      && outcome == (if i == |entries| then Pass else Fail(Fault(entries[i], cutoff).value))
    ensures PassResult(remaining, outcome) == DeletePass(entries, cutoff)
  {
    var kept: seq<Entry> := [];
    var i := 0;
    while i < |entries|
      invariant 0 <= i <= |entries|
      invariant forall j :: 0 <= j < i ==> Healthy(entries[j], cutoff)
      invariant kept == Survivors(entries[..i], cutoff)
    {
      var e := entries[i];
      SurvivorsStep(entries, i, cutoff);
      var fault := None;
      if !e.listed {
        fault := Some(ReadDirFailed);
      } else if !e.hasCreated {
        fault := Some(MetadataUnavailable);
      } else if e.created < cutoff && !e.removable {
        fault := Some(DeletionFailed);
      }
      if fault.Some? {
        remaining, outcome := kept + entries[i..], Fail(fault.value);
        StopsAt(entries, cutoff, i);
        return;
      }
      assert Healthy(e, cutoff);
      if e.created >= cutoff {
        kept := kept + [e];
      }
      i := i + 1;
    }
    assert entries[..i] == entries;
    remaining, outcome := kept, Pass;
    StopsAt(entries, cutoff, i);
  }
}

=== FILE: results.dfy ===
/** The closed set of failures the cleaner can report, and the wrapper types
    that carry them.  The program returns `&'static str` messages from
    argument parsing and boxed `dyn Error` values from the deletion pass; here
    each kind of failure has its own constructor.  `ReadDirFailed` covers both
    the listing and fetching a listed item, and `MetadataUnavailable` covers
    both reading the metadata and reading its creation time. */
module Results {

  /** Every way an invocation can fail, one constructor per kind of failure. */
  datatype Error =
    | MissingDirectory     // no directory token after the program name
    | MissingThreshold     // no threshold token after the directory
    | InvalidThreshold     // the threshold token is not a u64
    | DirectoryNotFound    // the target path does not exist
    | ReadDirFailed        // listing the directory, or fetching one listed item, failed
    | MetadataUnavailable  // an entry's metadata or creation time could not be read
    | DeletionFailed       // removing an old entry was refused

  datatype Option<+T> = None | Some(value: T)

  /** A value or the error that prevented computing it. */
  datatype Result<+T> = Ok(value: T) | Err(error: Error)

  /** Success or failure of an action that yields no value (Rust's `Result<(), _>`). */
  datatype Outcome = Pass | Fail(error: Error)
}

=== FILE: threshold.dfy ===
/** The threshold argument is read with Rust's `str::parse::<u64>`.  This module
    models that parser for radix 10: an optional single leading '+', then one
    or more ASCII digits, whose value must fit in 64 unsigned bits.  A leading
    '-' is an invalid digit for an unsigned type, and no whitespace is skipped. */
module Threshold {
  import opened Results

  /** Largest value of `u64`. */
  const U64_MAX: nat := 0xFFFF_FFFF_FFFF_FFFF

  predicate IsDigit(c: char) {
    '0' <= c <= '9'
  }

  predicate AllDigits(s: string) {
    forall i :: 0 <= i < |s| ==> IsDigit(s[i])
  }

  function DigitValue(c: char): (d: nat)
    requires IsDigit(c)
    ensures d < 10
  {
    c as int - '0' as int
  }

  function DigitChar(d: nat): (c: char)
    requires d < 10
    ensures IsDigit(c) && DigitValue(c) == d
  {
    ('0' as int + d) as char
  }

  lemma DigitCharOfValue(c: char)
    requires IsDigit(c)
    ensures DigitChar(DigitValue(c)) == c
  {
  }

  /** Value of a string of decimal digits, most significant digit first. */
  function Value(s: string): nat
    requires AllDigits(s)
  {
    if |s| == 0 then 0 else 10 * Value(s[..|s| - 1]) + DigitValue(s[|s| - 1])
  }

  /** Canonical decimal spelling of `n`: no sign and no leading zero. */
  function Decimal(n: nat): (s: string)
    ensures |s| > 0 && AllDigits(s)
    ensures s[0] == '0' <==> n == 0
  {
    if n < 10 then [DigitChar(n)] else Decimal(n / 10) + [DigitChar(n % 10)]
  }

  /** Drops leading zeros, keeping at least one digit. */
  function TrimZeros(s: string): (t: string)
    ensures |t| <= |s| && t == s[|s| - |t|..]
    ensures |s| > 0 ==> |t| > 0 && (|t| == 1 || t[0] != '0')
  {
    if |s| > 1 && s[0] == '0' then TrimZeros(s[1..]) else s
  }

  /** The digits `from_str` reads: a leading '+' is dropped. */
  function Unsigned(s: string): string {
    if |s| > 0 && s[0] == '+' then s[1..] else s
  }

  /** `str::parse::<u64>` on the threshold token: `None` for an empty string,
      a lone sign, any non-digit, or a value above `U64_MAX`. */
  function ParseU64(s: string): (r: Option<nat>)
    ensures r.Some? ==> r.value <= U64_MAX
  {
    var d := Unsigned(s);
    if |d| > 0 && AllDigits(d) && Value(d) <= U64_MAX then Some(Value(d)) else None
  }

  /** Reading back a canonical spelling gives the number spelled. */
  lemma {:induction false} ValueOfDecimal(n: nat)
    ensures Value(Decimal(n)) == n
  {
    if n >= 10 {
      var s := Decimal(n);
      assert s[..|s| - 1] == Decimal(n / 10);
      ValueOfDecimal(n / 10);
    }
  }

  /** A leading zero does not change the value. */
  lemma {:induction false} LeadingZero(s: string)
    requires |s| > 0 && s[0] == '0' && AllDigits(s)
    ensures Value(s) == Value(s[1..])
  {
    if |s| > 1 {
      var p := s[..|s| - 1];
      LeadingZero(p);
      assert p[1..] == s[1..][..|s[1..]| - 1];
    }
  }

  /** A digit string without leading zero is the canonical spelling of its value. */
  lemma {:induction false} CanonicalRoundTrip(s: string)
    requires |s| > 0 && AllDigits(s) && (|s| == 1 || s[0] != '0')
    ensures Decimal(Value(s)) == s
  {
    if |s| == 1 {
      DigitCharOfValue(s[0]);
      assert Value(s) == DigitValue(s[0]);
    } else {
      var p := s[..|s| - 1];
      CanonicalRoundTrip(p);
      var v := Value(s);
      assert Value(p) != 0;
      assert v / 10 == Value(p) && v % 10 == DigitValue(s[|s| - 1]);
      DigitCharOfValue(s[|s| - 1]);
      assert s == p + [s[|s| - 1]];
    }
  }

  /** Spelling the value of any digit string gives that string without its
      leading zeros. */
  lemma {:induction false} DecimalOfValue(s: string)
    requires |s| > 0 && AllDigits(s)
    ensures Decimal(Value(s)) == TrimZeros(s)
  {
    if |s| > 1 && s[0] == '0' {
      LeadingZero(s);
      DecimalOfValue(s[1..]);
    } else {
      CanonicalRoundTrip(s);
    }
  }

  /** Every number up to `U64_MAX` is accepted in its canonical spelling, with
      or without a '+' sign. */
  lemma ParseDecimal(n: nat)
    requires n <= U64_MAX
    ensures ParseU64(Decimal(n)) == Some(n)
    ensures ParseU64("+" + Decimal(n)) == Some(n)
  {
    ValueOfDecimal(n);
    assert ("+" + Decimal(n))[1..] == Decimal(n);
  }

  /** Numbers above `U64_MAX` are rejected. */
  lemma ParseOverflow(n: nat)
    requires n > U64_MAX
    ensures ParseU64(Decimal(n)) == None
  {
    ValueOfDecimal(n);
  }

  /** Whatever the parser accepts is an optional '+', some zeros and the
      canonical spelling of the accepted value. */
  lemma ParseCanonical(s: string)
    requires ParseU64(s).Some?
    ensures Decimal(ParseU64(s).value) == TrimZeros(Unsigned(s))
  {
    DecimalOfValue(Unsigned(s));
  }

  /** Leading zeros are accepted and do not change the value read, with or
      without a '+' sign in front of them. */
  lemma ParseLeadingZero(s: string)
    requires |s| > 0 && AllDigits(s)
    ensures ParseU64("0" + s) == ParseU64(s)
    ensures ParseU64("+0" + s) == ParseU64(s)
  {
    assert ("0" + s)[1..] == s;
    LeadingZero("0" + s);
    assert ("+0" + s)[1..] == "0" + s;
  }

  /** A character that is neither a digit nor the leading sign makes the
      token invalid. */
  lemma ParseRejectsNonDigit(s: string, i: nat)
    requires i < |s| && !IsDigit(s[i]) && !(i == 0 && s[0] == '+')
    ensures ParseU64(s) == None
  {
  }
}
